=== FILE: README.md ===
# Prompt tree store

This project models the prompt store behind the server actions of the prompt-sharing app. It covers three things:

- **Prompt documents:** posts, and replies to posts or to other replies, in `lib/models/prompt.model.ts`.
- **The `prompts` list** that each User and each Community document keeps.
- **The actions in `lib/actions/prompt.actions.ts`:**
  - the paginated newest-first listing (`fetchPosts`);
  - post creation (`createPrompt`);
  - the recursive reply walk (`fetchAllChildPrompts`);
  - the cascading delete (`deletePrompt`);
  - lookup by id (`fetchPromptById`);
  - replying (`addCommentToPrompt`).

It also models the zod form schemas of `lib/validations/prompt.ts` and `lib/validations/thread.ts`.

The collections are one `Database` record held by the class `PromptActions.PromptStore`. The actions that write are methods on that class and update the record step by step, as the source does. The read-only queries are functions of it.

The invariant `StoreState.Consistent` holds between actions. It requires:

- the reply tree is well formed (acyclic), and every reply is listed in its stored parent's `children`;
- every prompt has its text;
- the User and Community `prompts` lists are exact.

Each method keeps this invariant: it calls a `StoreState` lemma that proves it.

Ids are natural numbers handed out in creation order. As a result, a reply always has a larger id than its parent. That makes the tree acyclic, and it gives `fetchAllChildPrompts` a termination measure. The source has no cycle guard.

Modules:

| file | module | contents |
|---|---|---|
| `wrappers.dfy` | `Wrappers` | `Option` and `Result` |
| `prompt_model.dfy` | `PromptModel` | the Prompt document |
| `field_rules.dfy` | `FieldRules` | the zod rules the forms use |
| `prompt_validation.dfy`, `thread_validation.dfy` | `PromptForm`, `ThreadForm` | the two form files |
| `prompt_tree.dfy` | `PromptTree` | the reply tree, `Descendants` and the delete set |
| `feed.dfy` | `Feed` | the listing |
| `back_index.dfy` | `BackIndex` | `$pull` and the User/Community lists |
| `store_state.dfy` | `StoreState` | the collections, their invariant, and the lemmas that each action keeps it |
| `prompt_store.dfy` | `PromptActions` | the store class and its actions |

Two facts about the code shape the invariant:

- `addCommentToPrompt` (lib/actions/prompt.actions.ts:208-245) never pushes a reply onto its author's `prompts` list. So `AuthorIndex` says a user's list holds exactly that user's stored top-level prompts. `CommentKeepsConsistent` and `AddCommentToPrompt` prove that no user list changes when a reply is added.
- A deleted reply's id stays in its parent's `children`, because `deletePrompt` prunes no `children` list. `StoreState.DeleteLeaves` states that every surviving record is unchanged.

## Model

| member | source | states |
|---|---|---|
| PromptActions.PromptStore.FindCommunity | lib/actions/prompt.actions.ts:66-69 | `Community.findOne({id})` finds a community exactly when an id is given and known, returns that community's internal id, and in a consistent store that community has a `prompts` list |
| PromptActions.PromptStore.FetchPromptById | lib/actions/prompt.actions.ts:165-201 | Returns `Some` exactly when the id is stored, and then the stored record; `None` (`findById` gives null) otherwise |
| PromptActions.PromptStore.CreatePrompt | lib/actions/prompt.actions.ts:60-95 | Empty text fails with `Failed to create prompt: ` plus the `text` validation error and changes nothing. Otherwise: one new prompt under the next id (`nextId`, unused so far) with the given text and author, no `parentId`, empty `children`, and the looked-up community; the id appended at the end of the author's list; appended to the community's list only when the lookup found one (no community list changes otherwise); the invariant kept |
| PromptActions.PromptStore.FetchAllChildPrompts | lib/actions/prompt.actions.ts:97-107 | The loop over the direct replies, with recursive calls, returns exactly `Descendants(r)` (loop invariant: the prefix of replies walked so far gives `Forest` of that prefix) |
| PromptActions.PromptStore.DeletePrompt | lib/actions/prompt.actions.ts:109-163 | A missing id fails with `Failed to delete prompt: Prompt not found` and changes nothing. Otherwise: removes exactly `Subtree(id)` from the prompts and the store order; pulls those ids from the lists of exactly the distinct authors and communities of the removed prompts; the invariant kept |
| PromptActions.PromptStore.AddCommentToPrompt | lib/actions/prompt.actions.ts:208-245 | A missing parent, or empty text, fails with `Unable to add comment` and changes nothing. Otherwise: one new reply under the next id (`nextId`, unused so far) with the given text and author, `parentId = promptId` and no community; exactly that id appended to the parent's `children`; every other record, and every user and community list, unchanged; the invariant kept |
| Feed.TopLevel | lib/actions/prompt.actions.ts:18 | The listed candidates are exactly the stored prompts without a `parentId`, each once |
| Feed.InsertByRecency | lib/actions/prompt.actions.ts:19 | Inserting into a newest-first list gives a newest-first permutation of the list plus the new element |
| Feed.ByRecency | lib/actions/prompt.actions.ts:19 | `.sort({createdAt: "desc"})`: the result is a permutation of its input in non-increasing `createdAt` order |
| Feed.ByRecencySameDates | lib/actions/prompt.actions.ts:19 | The ranking depends on no field of a record other than `createdAt` |
| Feed.Ranked | lib/actions/prompt.actions.ts:18-19 | A newest-first permutation of exactly the top-level prompts |
| Feed.SkipLimit | lib/actions/prompt.actions.ts:20-21 | `.skip(k).limit(n)`: at most `n` entries; entry `i` is ranked entry `k + i`; fewer than `n` only when the ranked list runs out |
| Feed.FetchPosts | lib/actions/prompt.actions.ts:11-49 | At most `pageSize` posts, all top-level, newest first; post `i` is ranked post `(pageNumber-1)*pageSize + i`; a short page only at the end; `isNext` exactly when the top-level count exceeds `skipAmount + posts.length` |
| Feed.NextPageNonEmpty | lib/actions/prompt.actions.ts:40-46 | `isNext` holds exactly when the following page is not empty |
| Feed.OnItsPage | lib/actions/prompt.actions.ts:15-21 | The top-level prompt of rank `k` is listed on page `k / pageSize + 1` |
| PromptTree.ChildrenOf | lib/actions/prompt.actions.ts:98 | `Prompt.find({parentId: r})`: exactly the stored replies to `r`, each once |
| PromptTree.ChildrenInStoreOrder | lib/actions/prompt.actions.ts:98 | The replies come back in store order: the replies found in `a + b` are those found in `a` followed by those found in `b` |
| PromptTree.AncestorBelow | lib/models/prompt.model.ts:29-31 | An ancestor has a smaller id than its descendant, so no prompt is its own ancestor |
| PromptTree.DescendantsExact | lib/actions/prompt.actions.ts:97-107 | `Descendants(r)`, the specification of `fetchAllChildPrompts(r)`, holds exactly the prompts that have `r` as an ancestor |
| PromptTree.DescendantsOnce | lib/actions/prompt.actions.ts:121-127 | `[r] + fetchAllChildPrompts(r)` names each prompt at most once |
| PromptTree.DescendantsPreorder | lib/actions/prompt.actions.ts:101-104 | Pre-order: every entry of the result is followed immediately by exactly its own descendants |
| PromptTree.IdsOf | lib/actions/prompt.actions.ts:124-127 | The ids a list names |
| PromptTree.Subtree | lib/actions/prompt.actions.ts:121-127 | The delete set is `r` together with every prompt that descends from it, and holds only stored ids when `r` is stored |
| PromptTree.SubtreeClosed | lib/actions/prompt.actions.ts:121-145 | Every stored reply to a member of the delete set is in the delete set |
| BackIndex.Pull | lib/actions/prompt.actions.ts:150 | `$pull {$in: doomed}` keeps exactly the entries not in `doomed` and keeps a duplicate-free list duplicate-free |
| BackIndex.PullAppend | lib/actions/prompt.actions.ts:150 | Pulling keeps the relative order of the remaining entries |
| BackIndex.PullUntouched | lib/actions/prompt.actions.ts:150 | A list that holds no doomed id is left exactly as it was |
| BackIndex.PullFrom | lib/actions/prompt.actions.ts:148-157 | `updateMany({_id: {$in: owners}}, {$pull})` changes no list outside `owners`; a list of an owner keeps exactly its entries that are not doomed; no owner is added |
| BackIndex.AuthorsOf | lib/actions/prompt.actions.ts:130-135 | The distinct authors of the given prompts: every author is there, and nothing else |
| BackIndex.CommunitiesOf | lib/actions/prompt.actions.ts:137-142 | The distinct communities of the given prompts; prompts without a community contribute none |
| BackIndex.DeleteKeepsAuthorIndex | lib/actions/prompt.actions.ts:130-151 | After the delete and the pull, no user's list names a deleted prompt, and the user lists stay exact |
| BackIndex.DeleteKeepsCommunityIndex | lib/actions/prompt.actions.ts:137-157 | The same for the community lists |
| PromptModel.HasText | lib/models/prompt.model.ts:4-7 | The `required` String path `text`: a record passes exactly when its text has at least one character |
| PromptModel.NewPost | lib/actions/prompt.actions.ts:71-77 | The document `Prompt.create` builds: top-level (no `parentId`), no `children`, the given text, `code`, `imageUrl`, author, community and creation time; it passes `HasText` exactly when the text is not empty |
| PromptModel.NewComment | lib/actions/prompt.actions.ts:225-229 | The reply `new Prompt(...)` builds: `parentId` set to the parent, the given text, author and creation time, no `code`, `imageUrl`, community or `children`; it passes `HasText` exactly when the text is not empty |
| Feed.SkipAmountPages | lib/actions/prompt.actions.ts:15 | `skipAmount`: page 1 skips nothing, each page starts `pageSize` ranks after the one before it, and page `n` skips at least `n - 1` ranks |
| StoreState.PushTo | lib/actions/prompt.actions.ts:84-89 | The `$push` onto the community list runs only when the lookup found a community: that list alone gains the id at its end, and no list is added |
| StoreState.WithReply | lib/actions/prompt.actions.ts:225-238 | The two saves of `addCommentToPrompt`: the reply is stored under the fresh id, the parent's record changes only in that its `children` gains that id at its end, and every other record is unchanged |
| StoreState.Push | lib/actions/prompt.actions.ts:80-82 | `findByIdAndUpdate(owner, {$push})` appends the id to the owner's list only, and skips an owner that does not exist |
| StoreState.FreshId | lib/actions/prompt.actions.ts:71-77 | The next id is not yet stored, and appending it keeps the store order duplicate-free |
| StoreState.PostKeepsConsistent | lib/actions/prompt.actions.ts:71-89 | Storing a new top-level post and pushing its id onto its author's and community's lists keeps the invariant |
| StoreState.FreshPostAlone | lib/actions/prompt.actions.ts:71-77 | A just-created post has no replies, so its delete set is the post alone |
| StoreState.PullLast | lib/actions/prompt.actions.ts:148-157 | Pulling an id just appended to a list that lacked it gives the list back |
| StoreState.PullFromUndoesPush | lib/actions/prompt.actions.ts:80-82 | Pulling the pushed id from the owner's list undoes the push on every list |
| StoreState.PullFromUndoesPushAuthor | lib/actions/prompt.actions.ts:80-82 | The same, with the owner given by `AuthorsOf` of the new post |
| StoreState.PullFromUndoesPushTo | lib/actions/prompt.actions.ts:84-89 | The same for the community list, including the case of a post with no community |
| StoreState.DeleteUndoesCreate | lib/actions/prompt.actions.ts:60-163 | `deletePrompt` right after `createPrompt` gives back the prompts, the store order and every user and community list as they were |
| StoreState.PushKeepsAuthorIndex | lib/actions/prompt.actions.ts:80-82 | Pushing a new post onto its author's list keeps the user lists exact |
| StoreState.PushKeepsCommunityIndex | lib/actions/prompt.actions.ts:84-89 | Pushing a new post onto its community's list keeps the community lists exact |
| StoreState.ReplyKeepsTree | lib/actions/prompt.actions.ts:225-238 | Saving a reply and appending it to its parent's `children` keeps the tree well formed, with every reply listed in its stored parent's `children` |
| StoreState.ReplyKeepsAuthorIndex | lib/actions/prompt.actions.ts:225-238 | A reply leaves the user lists exact without touching them |
| StoreState.ReplyKeepsCommunityIndex | lib/actions/prompt.actions.ts:225-238 | A reply, which has no community, leaves the community lists exact |
| StoreState.ReplyKeepsTopLevel | lib/actions/prompt.actions.ts:225-238 | After a reply is added, the top-level prompts are the same, in the same order |
| StoreState.CommentKeepsListing | lib/actions/prompt.actions.ts:208-245 | `fetchPosts` lists the same posts, in the same order, on every page before and after `addCommentToPrompt` |
| StoreState.CommentKeepsConsistent | lib/actions/prompt.actions.ts:225-238 | Adding a reply under the next id keeps the invariant |
| StoreState.DeleteLeaves | lib/actions/prompt.actions.ts:145 | `deleteMany` leaves exactly the prompts that are neither `r` nor below it, each with its record unchanged |
| StoreState.DeleteKeepsTree | lib/actions/prompt.actions.ts:145 | After the delete the tree is still well formed, and no survivor's parent is gone |
| StoreState.DeleteKeepsConsistent | lib/actions/prompt.actions.ts:121-157 | The whole delete (prompts, store order, user and community lists) keeps the invariant |
| FieldRules.MinThreeText | lib/validations/prompt.ts:4 | `z.string().nonempty().min(3, …)`: accepted exactly when present and at least 3 long; a shorter string gets `Minimum 3 characters.`; the empty string also gets the non-empty issue; absent means `Required` |
| FieldRules.RequiredString | lib/validations/prompt.ts:6 | `z.string()`: accepted exactly when present; otherwise `Required` |
| PromptForm.PromptValidation | lib/validations/prompt.ts:3-7 | Accepted exactly when `prompt` has at least 3 characters and `accountId` is present; a short or empty `prompt` is rejected with `Minimum 3 characters.`; `codeSnippet` never causes an issue |
| PromptForm.CommentValidation | lib/validations/prompt.ts:9-13 | The same `prompt` rule with no `accountId`: accepted exactly when `PromptValidation` would accept it with any `accountId` |
| ThreadForm.ThreadValidation | lib/validations/thread.ts:3-7 | As `PromptValidation`, keyed on `thread` |
| ThreadForm.CommentValidation | lib/validations/thread.ts:9-13 | As `PromptForm.CommentValidation`, keyed on `thread` |

## Left out

- `connectToDB()`, `revalidatePath(path)` and `console.error` (lib/actions/prompt.actions.ts:12, 64, 91, 111, 159, 166, 203, 214, 240, 242): they connect to the database, invalidate the page cache and write a log line; no stored data changes.
- The `populate` and `select` projections (lib/actions/prompt.actions.ts:22-37, 114, 169-198): the model returns the stored records and ids, not the joined documents.
- Atomicity and concurrency: each action runs alone, from start to end. A failure between the steps of a multi-step write, and any rollback after it, are not modelled.
- Errors raised by the database itself are not modelled. So are the messages they carry through the `catch` blocks. Only the messages the code writes itself are kept: `Failed to delete prompt: Prompt not found` and `Unable to add comment`. The create failure is `Rejected("Failed to create prompt: ", "text")`, standing for the prefix plus Mongoose's validation message for the `text` path.
- PromptActions.PromptStore.FetchPromptById: malformed ids that cannot be cast, and the `Unable to fetch prompt` error they cause, are not modelled. Ids are well-typed numbers. The same holds for a malformed author or community id elsewhere.
- `Date.now`, the default of `createdAt` (lib/models/prompt.model.ts:25-28), is the caller-supplied `now` parameter.
- PromptActions.PromptStore.CreatePrompt: the returned id stands in for the created document. The source returns nothing.
- Ids are natural numbers handed out in creation order, standing for Mongo ObjectIds. The `parentId` string/ObjectId mixing is not modelled.
- Feed.FetchPosts: requires `pageNumber >= 1` and `pageSize >= 1`. Mongo's `limit(0)` (no limit) and a negative `skip` (an error) are not modelled, and neither are the default arguments (1 and 20).
- Feed.ByRecency: Mongo leaves the order of posts with equal `createdAt` open, and the sort has no tiebreaker. The model keeps store order for them (a stable sort), which is one of the orders a single query may return. Each `fetchPosts` call runs its own query, though, so different calls (different pages, or the same page twice) may order tied posts differently.
- Feed.OnItsPage: every page is cut from one fixed ranking. The program gives that guarantee only when no two top-level posts share a `createdAt`. With ties across a page boundary, a post can be listed on two pages or on none.
- StoreState.CommentKeepsListing: for the same reason, the same posts in the same order on every page is guaranteed by the program only when no two top-level posts share a `createdAt`. Otherwise a later call may reorder tied posts, with or without a reply.
- PromptActions.PromptStore.FetchPosts: the method form of the listing has no contract of its own. It returns `Feed.FetchPosts` on the current collections, and that function's contract is what the listing states.
- PromptActions.PromptStore.FindCommunity: `findOne({id: null})` could match a community with no `id` field. The model assumes every community has one, so a missing `communityId` finds nothing.
- The zod library itself: only the issue kinds the schemas can produce are modelled (`Required`, and `TooSmall` with the minimum and message). zod's default wording is `None`. Keys not in the schema are ignored, as zod strips them.
- FieldRules.MinThreeText: lengths are counted in characters (Unicode scalar values), while zod's `.nonempty()` and `.min(3)` count UTF-16 code units. Text with characters outside the Basic Multilingual Plane can be judged differently: two emoji are 2 characters here but length 4 to zod.
- The User and Community documents are reduced to their `prompts` lists. Their other fields are not part of this model.

=== FILE: back_index.dfy ===
/**
 * The `prompts` lists kept on User and Community documents, and the `$pull`
 * that `deletePrompt` (lib/actions/prompt.actions.ts) runs on them.
 */
module BackIndex {
  import opened Wrappers
  import opened PromptModel
  import opened PromptTree

  /** `$pull: { prompts: { $in: doomed } }` on one list. */
  function Pull(list: seq<PromptId>, doomed: set<PromptId>): (r: seq<PromptId>)
    ensures forall x :: x in r <==> x in list && x !in doomed
    ensures Distinct(list) ==> Distinct(r)
  {
    if list == [] then []
    else
      var rest := Pull(list[1..], doomed);
      assert list == [list[0]] + list[1..];
      assert Distinct(list) ==> list[0] !in list[1..] && Distinct(list[1..]) by {
        if Distinct(list) {
          forall i, j | 0 <= i < j < |list[1..]| ensures list[1..][i] != list[1..][j] {
            assert list[1..][i] == list[i + 1] && list[1..][j] == list[j + 1];
          }
        }
      }
      (if list[0] in doomed then [] else [list[0]]) + rest
  }

  /** The entries that stay keep their relative order: pulling from two runs pulls from each. */
  lemma {:induction false} PullAppend(a: seq<PromptId>, b: seq<PromptId>, doomed: set<PromptId>)
    ensures Pull(a + b, doomed) == Pull(a, doomed) + Pull(b, doomed)
  {
    if a != [] {
      var head := if a[0] in doomed then [] else [a[0]];
      assert (a + b)[0] == a[0] && (a + b)[1..] == a[1..] + b;
      assert Pull(a + b, doomed) == head + Pull(a[1..] + b, doomed);
      assert Pull(a, doomed) == head + Pull(a[1..], doomed);
      PullAppend(a[1..], b, doomed);
    } else {
      assert a + b == b;
    }
  }

  /** A list holding nothing from `doomed` is left exactly as it was. */
  lemma {:induction false} PullUntouched(list: seq<PromptId>, doomed: set<PromptId>)
    requires forall x :: x in list ==> x !in doomed
    ensures Pull(list, doomed) == list
  {
    if list != [] {
      PullUntouched(list[1..], doomed);
      assert list == [list[0]] + list[1..];
    }
  }

  /** `updateMany({ _id: { $in: owners } }, { $pull: ... })`: owners that do not exist are skipped. */
  function PullFrom<K>(lists: map<K, seq<PromptId>>, owners: set<K>, doomed: set<PromptId>): (r: map<K, seq<PromptId>>)
    ensures r.Keys == lists.Keys
    ensures forall k :: k in lists && k !in owners ==> r[k] == lists[k]
    ensures forall k, x :: k in lists && k in owners ==> (x in r[k] <==> x in lists[k] && x !in doomed)
    ensures forall k :: k in lists && Distinct(lists[k]) ==> Distinct(r[k])
  {
    map k | k in lists :: if k in owners then Pull(lists[k], doomed) else lists[k]
  }

  /** The distinct authors of the prompts in `ids`. */
  function AuthorsOf(ps: Table, ids: set<PromptId>): (authors: set<UserId>)
    requires ids <= ps.Keys
    ensures forall x :: x in ids ==> ps[x].author in authors
    ensures forall u :: u in authors ==> exists x :: x in ids && ps[x].author == u
  {
    set x | x in ids :: ps[x].author
  }

  /** The distinct communities of the prompts in `ids`; prompts without one are skipped. */
  function CommunitiesOf(ps: Table, ids: set<PromptId>): (communities: set<CommunityRef>)
    requires ids <= ps.Keys
    ensures forall x :: x in ids && ps[x].community.Some? ==> ps[x].community.value in communities
    ensures forall c :: c in communities ==> exists x :: x in ids && ps[x].community == Some(c)
  {
    set x | x in ids && ps[x].community.Some? :: ps[x].community.value
  }

  /**
   * A user's `prompts` list names only stored prompts of that user, each once,
   * and names every stored top-level prompt of that user. Replies are never
   * added to it.
   */
  ghost predicate AuthorIndex(ps: Table, users: map<UserId, seq<PromptId>>)
  {
    && (forall u, x :: u in users && x in users[u] ==> x in ps && ps[x].author == u)
    && (forall x :: x in ps && ps[x].parentId.None? && ps[x].author in users ==> x in users[ps[x].author])
    && (forall u :: u in users ==> Distinct(users[u]))
  }

  /**
   * A community's `prompts` list names only stored prompts of that community,
   * each once, and every stored prompt that belongs to it.
   */
  ghost predicate CommunityIndex(ps: Table, communities: map<CommunityRef, seq<PromptId>>)
  {
    && (forall c, x :: c in communities && x in communities[c] ==> x in ps && ps[x].community == Some(c))
    && (forall x :: x in ps && ps[x].community.Some? && ps[x].community.value in communities ==>
          x in communities[ps[x].community.value])
    && (forall c :: c in communities ==> Distinct(communities[c]))
  }

  /**
   * Deleting `doomed` and pulling it from the lists of their authors keeps the
   * user index exact: no list names a deleted prompt afterwards, and every
   * surviving entry stays.
   */
  lemma DeleteKeepsAuthorIndex(ps: Table, users: map<UserId, seq<PromptId>>, doomed: set<PromptId>)
    requires AuthorIndex(ps, users) && doomed <= ps.Keys
    ensures AuthorIndex(ps - doomed, PullFrom(users, AuthorsOf(ps, doomed), doomed))
    ensures forall u, x :: u in users && x in PullFrom(users, AuthorsOf(ps, doomed), doomed)[u] ==> x !in doomed
  {
    AuthorsAfterPull(ps, users, doomed, AuthorsOf(ps, doomed), PullFrom(users, AuthorsOf(ps, doomed), doomed));
  }

  /** `DeleteKeepsAuthorIndex` for any `owners` covering the doomed prompts' authors and any `pulled` lists as `PullFrom` leaves them. */
  lemma {:induction false} AuthorsAfterPull(ps: Table, users: map<UserId, seq<PromptId>>, doomed: set<PromptId>,
                                            owners: set<UserId>, pulled: map<UserId, seq<PromptId>>)
    requires AuthorIndex(ps, users)
    requires forall y :: y in doomed && y in ps ==> ps[y].author in owners
    requires pulled.Keys == users.Keys
    requires forall u :: u in users && u !in owners ==> pulled[u] == users[u]
    requires forall u, x :: u in users && u in owners ==> (x in pulled[u] <==> x in users[u] && x !in doomed)
    requires forall u :: u in users && Distinct(users[u]) ==> Distinct(pulled[u])
    ensures AuthorIndex(ps - doomed, pulled)
    ensures forall u, x :: u in users && x in pulled[u] ==> x !in doomed
  {
    forall u, x | u in users && x in pulled[u]
      ensures x in ps && x !in doomed && ps[x].author == u
    {
      assert x in doomed ==> u in owners;
      assert x in users[u];
    }
    var ps' := ps - doomed;
    forall x | x in ps' && ps'[x].parentId.None? && ps'[x].author in pulled
      ensures x in pulled[ps'[x].author]
    {
      var u := ps[x].author;
      assert x in ps && ps'[x] == ps[x] && u in users;
      assert x in users[u] && x !in doomed;
    }
  }

  /** The same for the communities of the deleted prompts. */
  lemma DeleteKeepsCommunityIndex(ps: Table, communities: map<CommunityRef, seq<PromptId>>, doomed: set<PromptId>)
    requires CommunityIndex(ps, communities) && doomed <= ps.Keys
    ensures CommunityIndex(ps - doomed, PullFrom(communities, CommunitiesOf(ps, doomed), doomed))
    ensures forall c, x :: c in communities && x in PullFrom(communities, CommunitiesOf(ps, doomed), doomed)[c] ==>
      x !in doomed
  {
    CommunitiesAfterPull(ps, communities, doomed, CommunitiesOf(ps, doomed),
                         PullFrom(communities, CommunitiesOf(ps, doomed), doomed));
  }

  /** `DeleteKeepsCommunityIndex` for any `owners` covering the doomed prompts' communities and any `pulled` lists as `PullFrom` leaves them. */
  lemma {:induction false} CommunitiesAfterPull(ps: Table, communities: map<CommunityRef, seq<PromptId>>,
                                                doomed: set<PromptId>, owners: set<CommunityRef>,
                                                pulled: map<CommunityRef, seq<PromptId>>)
    requires CommunityIndex(ps, communities)
    requires forall y :: y in doomed && y in ps && ps[y].community.Some? ==> ps[y].community.value in owners
    requires pulled.Keys == communities.Keys
    requires forall c :: c in communities && c !in owners ==> pulled[c] == communities[c]
    requires forall c, x :: c in communities && c in owners ==> (x in pulled[c] <==> x in communities[c] && x !in doomed)
    requires forall c :: c in communities && Distinct(communities[c]) ==> Distinct(pulled[c])
    ensures CommunityIndex(ps - doomed, pulled)
    ensures forall c, x :: c in communities && x in pulled[c] ==> x !in doomed
  {
    forall c, x | c in communities && x in pulled[c]
      ensures x in ps && x !in doomed && ps[x].community == Some(c)
    {
      assert x in doomed ==> c in owners;
      assert x in communities[c];
    }
    var ps' := ps - doomed;
    forall x | x in ps' && ps'[x].community.Some? && ps'[x].community.value in pulled
      ensures x in pulled[ps'[x].community.value]
    {
      var c := ps[x].community.value;
      assert x in ps && ps'[x] == ps[x] && c in communities;
      assert x in communities[c] && x !in doomed;
    }
  }
}

=== FILE: feed.dfy ===
/**
 * The paginated listing of top-level prompts, `fetchPosts` in
 * lib/actions/prompt.actions.ts: newest first, `pageSize` per page.
 */
module Feed {
  import opened PromptModel
  import opened PromptTree

  /** `Prompt.find({ parentId: { $in: [null, undefined] } })`: the stored posts that are not replies, in store order. */
  function TopLevel(ps: Table, order: seq<PromptId>): (ts: seq<PromptId>)
    requires forall x :: x in order ==> x in ps
    ensures forall x :: x in ts <==> x in order && ps[x].parentId.None?
    ensures Distinct(order) ==> Distinct(ts)
  {
    if order == [] then []
    else
      var rest := TopLevel(ps, order[1..]);
      assert Distinct(order) ==> order[0] !in order[1..];
      if ps[order[0]].parentId.None? then [order[0]] + rest else rest
  }

  /** `.sort({ createdAt: "desc" })`: no prompt is older than one after it. */
  ghost predicate NewestFirst(ps: Table, s: seq<PromptId>)
    requires forall x :: x in s ==> x in ps
  {
    forall i, j :: 0 <= i < j < |s| ==> ps[s[i]].createdAt >= ps[s[j]].createdAt
  }

  lemma HeadIsNewest(ps: Table, s: seq<PromptId>)
    requires forall y :: y in s ==> y in ps
    requires s != [] && NewestFirst(ps, s)
    ensures forall y :: y in s[1..] ==> ps[y].createdAt <= ps[s[0]].createdAt
  {
    forall y | y in s[1..] ensures ps[y].createdAt <= ps[s[0]].createdAt {
      var j :| 0 <= j < |s[1..]| && s[1..][j] == y;
      assert s[j + 1] == y;
    }
  }

  lemma ConsNewest(ps: Table, a: PromptId, t: seq<PromptId>)
    requires a in ps && forall y :: y in t ==> y in ps
    requires NewestFirst(ps, t)
    requires forall y :: y in t ==> ps[y].createdAt <= ps[a].createdAt
    ensures NewestFirst(ps, [a] + t)
  {
    var s := [a] + t;
    forall i, j | 0 <= i < j < |s| ensures ps[s[i]].createdAt >= ps[s[j]].createdAt {
      assert s[j] == t[j - 1] && t[j - 1] in t;
      if i > 0 {
        assert s[i] == t[i - 1];
      }
    }
  }

  lemma TailNewest(ps: Table, s: seq<PromptId>)
    requires forall y :: y in s ==> y in ps
    requires s != [] && NewestFirst(ps, s)
    ensures NewestFirst(ps, s[1..])
  {
    forall i, j | 0 <= i < j < |s[1..]| ensures ps[s[1..][i]].createdAt >= ps[s[1..][j]].createdAt {
      assert s[1..][i] == s[i + 1] && s[1..][j] == s[j + 1];
    }
  }

  lemma InMultiset(r: seq<PromptId>, s: seq<PromptId>, x: PromptId)
    requires multiset(r) == multiset(s) + multiset{x}
    ensures forall y :: y in r ==> y in s || y == x
  {
    forall y | y in r ensures y in s || y == x {
      assert y in multiset(r);
    }
  }

  /** Puts `x` before the first prompt of `s` that is not newer than it. */
  function InsertByRecency(ps: Table, x: PromptId, s: seq<PromptId>): (r: seq<PromptId>)
    requires x in ps && forall y :: y in s ==> y in ps
    requires NewestFirst(ps, s)
    ensures multiset(r) == multiset(s) + multiset{x}
    ensures forall y :: y in r ==> y in ps
    ensures NewestFirst(ps, r)
  {
    if s == [] || ps[s[0]].createdAt <= ps[x].createdAt then
      ConsNewest(ps, x, s);
      [x] + s
    else
      TailNewest(ps, s);
      var rest := InsertByRecency(ps, x, s[1..]);
      HeadIsNewest(ps, s);
      InMultiset(rest, s[1..], x);
      ConsNewest(ps, s[0], rest);
      assert s == [s[0]] + s[1..];
      [s[0]] + rest
  }

  /**
   * The order the listing returns posts in: newest first; posts with the same
   * `createdAt` keep their store order.
   */
  function ByRecency(ps: Table, s: seq<PromptId>): (r: seq<PromptId>)
    requires forall y :: y in s ==> y in ps
    ensures multiset(r) == multiset(s)
    ensures forall y :: y in r ==> y in ps
    ensures NewestFirst(ps, r)
  {
    if s == [] then []
    else
      assert s == [s[0]] + s[1..];
      InsertByRecency(ps, s[0], ByRecency(ps, s[1..]))
  }

  /** The ranking reads nothing of a record but its `createdAt`. */
  lemma {:induction false} InsertSameDates(ps: Table, qs: Table, x: PromptId, s: seq<PromptId>)
    requires x in ps && x in qs && ps[x].createdAt == qs[x].createdAt
    requires forall y :: y in s ==> y in ps && y in qs && ps[y].createdAt == qs[y].createdAt
    requires NewestFirst(ps, s) && NewestFirst(qs, s)
    ensures InsertByRecency(ps, x, s) == InsertByRecency(qs, x, s)
  {
    if s != [] && ps[s[0]].createdAt > ps[x].createdAt {
      TailNewest(ps, s);
      TailNewest(qs, s);
      InsertSameDates(ps, qs, x, s[1..]);
    }
  }

  lemma {:induction false} ByRecencySameDates(ps: Table, qs: Table, s: seq<PromptId>)
    requires forall y :: y in s ==> y in ps && y in qs && ps[y].createdAt == qs[y].createdAt
    ensures ByRecency(ps, s) == ByRecency(qs, s)
  {
    if s != [] {
      ByRecencySameDates(ps, qs, s[1..]);
      var t := ByRecency(ps, s[1..]);
      forall y | y in t ensures y in s[1..] {
        assert y in multiset(t);
      }
      InsertSameDates(ps, qs, s[0], t);
    }
  }

  /** Every top-level prompt, ranked newest first. */
  function Ranked(ps: Table, order: seq<PromptId>): (ranked: seq<PromptId>)
    requires forall x :: x in order ==> x in ps
    ensures multiset(ranked) == multiset(TopLevel(ps, order))
    ensures |ranked| == |TopLevel(ps, order)|
    ensures forall x :: x in ranked <==> x in order && ps[x].parentId.None?
    ensures NewestFirst(ps, ranked)
  {
    var ranked := ByRecency(ps, TopLevel(ps, order));
    assert |ranked| == |multiset(ranked)|;
    forall x ensures x in ranked <==> x in TopLevel(ps, order) {
      assert x in ranked <==> x in multiset(ranked);
    }
    ranked
  }

  /** `(pageNumber - 1) * pageSize`: how many ranked posts come before the page. */
  function SkipAmount(pageNumber: int, pageSize: int): nat
    requires pageNumber >= 1 && pageSize >= 1
  {
    (pageNumber - 1) * pageSize
  }

  /** Page 1 skips nothing, and each page starts `pageSize` ranks after the one before it. */
  lemma SkipAmountPages(pageNumber: int, pageSize: int)
    requires pageNumber >= 1 && pageSize >= 1
    ensures SkipAmount(1, pageSize) == 0
    ensures SkipAmount(pageNumber + 1, pageSize) == SkipAmount(pageNumber, pageSize) + pageSize
    ensures SkipAmount(pageNumber, pageSize) >= pageNumber - 1
  {
    var n := pageNumber - 1;
    assert SkipAmount(pageNumber + 1, pageSize) == (n + 1) * pageSize == n * pageSize + pageSize;
    assert n * pageSize == n * (pageSize - 1) + n && n * (pageSize - 1) >= 0;
  }

  /** `.skip(skip).limit(limit)` on a ranked list. */
  function SkipLimit(s: seq<PromptId>, skip: nat, limit: nat): (w: seq<PromptId>)
    ensures |w| <= limit
    ensures skip + |w| <= |s| || w == []
    ensures forall i :: 0 <= i < |w| ==> skip + i < |s| && w[i] == s[skip + i]
    ensures |w| < limit ==> skip + |w| >= |s|
  {
    if skip >= |s| then []
    else if skip + limit <= |s| then s[skip..skip + limit]
    else s[skip..]
  }

  lemma WindowNewest(ps: Table, s: seq<PromptId>, skip: nat, limit: nat)
    requires forall y :: y in s ==> y in ps
    requires NewestFirst(ps, s)
    ensures forall y :: y in SkipLimit(s, skip, limit) ==> y in s
    ensures NewestFirst(ps, SkipLimit(s, skip, limit))
  {
    var w := SkipLimit(s, skip, limit);
    forall y | y in w ensures y in s {
      var i :| 0 <= i < |w| && w[i] == y;
      assert s[skip + i] == y;
    }
    forall i, j | 0 <= i < j < |w| ensures ps[w[i]].createdAt >= ps[w[j]].createdAt {
      assert w[i] == s[skip + i] && w[j] == s[skip + j];
    }
  }

  /** What `fetchPosts` returns: the posts of one page, and whether a later page has any. */
  datatype Page = Page(posts: seq<PromptId>, isNext: bool)

  /** `fetchPosts(pageNumber, pageSize)` over the stored prompts. */
  function FetchPosts(ps: Table, order: seq<PromptId>, pageNumber: int, pageSize: int): (pg: Page)
    requires forall x :: x in order ==> x in ps
    requires pageNumber >= 1 && pageSize >= 1
    ensures |pg.posts| <= pageSize
    ensures forall x :: x in pg.posts ==> x in ps && ps[x].parentId.None?
    ensures NewestFirst(ps, pg.posts)
    ensures SkipAmount(pageNumber, pageSize) + |pg.posts| <= |TopLevel(ps, order)| || pg.posts == []
    ensures forall i :: 0 <= i < |pg.posts| ==>
      SkipAmount(pageNumber, pageSize) + i < |Ranked(ps, order)| &&
      pg.posts[i] == Ranked(ps, order)[SkipAmount(pageNumber, pageSize) + i]
    ensures |pg.posts| < pageSize ==> SkipAmount(pageNumber, pageSize) + |pg.posts| >= |TopLevel(ps, order)|
    ensures pg.isNext <==> |TopLevel(ps, order)| > SkipAmount(pageNumber, pageSize) + |pg.posts|
  {
    var ranked := Ranked(ps, order);
    var skipAmount := SkipAmount(pageNumber, pageSize);
    var posts := SkipLimit(ranked, skipAmount, pageSize);
    WindowNewest(ps, ranked, skipAmount, pageSize);
    Page(posts, |TopLevel(ps, order)| > skipAmount + |posts|)
  }

  /** `isNext` holds exactly when the following page is not empty. */
  lemma NextPageNonEmpty(ps: Table, order: seq<PromptId>, pageNumber: int, pageSize: int)
    requires forall x :: x in order ==> x in ps
    requires pageNumber >= 1 && pageSize >= 1
    ensures FetchPosts(ps, order, pageNumber, pageSize).isNext <==>
            FetchPosts(ps, order, pageNumber + 1, pageSize).posts != []
  {
    var n := |TopLevel(ps, order)|;
    var skip := SkipAmount(pageNumber, pageSize);
    assert SkipAmount(pageNumber + 1, pageSize) == pageNumber * pageSize == skip + pageSize;
    var here := FetchPosts(ps, order, pageNumber, pageSize).posts;
    var next := FetchPosts(ps, order, pageNumber + 1, pageSize).posts;
    assert next != [] <==> n > skip + pageSize;
  }

  /** Rank `k` lies in the window of page `k / pageSize + 1`. */
  lemma PageOfRank(k: nat, pageSize: int)
    requires pageSize >= 1
    ensures SkipAmount(k / pageSize + 1, pageSize) <= k < SkipAmount(k / pageSize + 1, pageSize) + pageSize
  {
    assert SkipAmount(k / pageSize + 1, pageSize) == (k / pageSize) * pageSize;
    assert k == (k / pageSize) * pageSize + k % pageSize;
  }

  /** A page whose window covers rank `k` lists the top-level prompt of that rank. */
  lemma InWindow(ps: Table, order: seq<PromptId>, k: nat, pageNumber: int, pageSize: int)
    requires forall x :: x in order ==> x in ps
    requires pageNumber >= 1 && pageSize >= 1 && k < |Ranked(ps, order)|
    requires SkipAmount(pageNumber, pageSize) <= k < SkipAmount(pageNumber, pageSize) + pageSize
    ensures Ranked(ps, order)[k] in FetchPosts(ps, order, pageNumber, pageSize).posts
  {
    var skip := SkipAmount(pageNumber, pageSize);
    var posts := FetchPosts(ps, order, pageNumber, pageSize).posts;
    assert |posts| > k - skip;
    assert posts[k - skip] == Ranked(ps, order)[k];
  }

  /** The top-level prompt of rank `k` is listed on page `k / pageSize + 1`. */
  lemma OnItsPage(ps: Table, order: seq<PromptId>, k: nat, pageSize: int)
    requires forall x :: x in order ==> x in ps
    requires pageSize >= 1 && k < |Ranked(ps, order)|
    ensures Ranked(ps, order)[k] in FetchPosts(ps, order, k / pageSize + 1, pageSize).posts
  {
    PageOfRank(k, pageSize);
    InWindow(ps, order, k, k / pageSize + 1, pageSize);
  }
}

=== FILE: field_rules.dfy ===
/**
 * The zod field rules the form schemas are built from, and the issues they
 * report. Only string-valued fields occur; a field is `None` when absent.
 */
module FieldRules {
  import opened Wrappers

  datatype Issue =
    /** A required field is absent (zod's "Required"). */
    | Required(path: string)
    /** A string is shorter than `minimum`; `None` stands for zod's default wording. */
    | TooSmall(path: string, minimum: nat, message: Option<string>)

  const MinimumMessage: string := "Minimum 3 characters."

  /**
   * `z.string().nonempty().min(3, { message: "Minimum 3 characters." })`:
   * both checks run, so the empty string is reported twice.
   */
  function MinThreeText(path: string, value: Option<string>): (issues: seq<Issue>)
    ensures issues == [] <==> value.Some? && |value.value| >= 3
    ensures value.Some? && |value.value| < 3 ==> TooSmall(path, 3, Some(MinimumMessage)) in issues
    ensures value.Some? ==> (TooSmall(path, 1, None) in issues <==> value.value == "")
    ensures value.None? ==> issues == [Required(path)]
    ensures forall i :: i in issues ==> i.path == path
  {
    match value
    case None => [Required(path)]
    case Some(s) =>
      (if |s| < 1 then [TooSmall(path, 1, None)] else [])
      + (if |s| < 3 then [TooSmall(path, 3, Some(MinimumMessage))] else [])
  }

  /** `z.string()`: any string, but the field must be there. */
  function RequiredString(path: string, value: Option<string>): (issues: seq<Issue>)
    ensures issues == [] <==> value.Some?
    ensures forall i :: i in issues ==> i == Required(path)
  {
    if value.Some? then [] else [Required(path)]
  }
}

=== FILE: prompt_model.dfy ===
/**
 * The Prompt document (lib/models/prompt.model.ts): a post or, when it has a
 * parent, a reply to another prompt.
 */
module PromptModel {
  import opened Wrappers

  /** Document ids. The store hands them out in creation order, so a larger id is a later document. */
  type PromptId = nat
  type UserId = string
  /** The internal `_id` of a Community document. */
  type CommunityRef = nat
  /** Milliseconds, as `Date.now` gives them; supplied by the caller. */
  type Timestamp = int

  /**
   * `author` is required and always present by its type; `code`, `imageUrl`,
   * `community` and `parentId` are optional; `children` lists direct replies
   * in the order they were added.
   */
  datatype Prompt = Prompt(
    text: string,
    code: Option<string>,
    imageUrl: Option<string>,
    author: UserId,
    community: Option<CommunityRef>,
    createdAt: Timestamp,
    parentId: Option<PromptId>,
    children: seq<PromptId>)

  /** Mongoose's `required` validator on the String path `text`: the empty string is refused. */
  predicate HasText(p: Prompt): (ok: bool)
    ensures ok <==> |p.text| >= 1
  {
    p.text != ""
  }

  /** The document `Prompt.create` builds for a new top-level post. */
  function NewPost(text: string, code: Option<string>, imageUrl: Option<string>, author: UserId,
                   community: Option<CommunityRef>, now: Timestamp): (p: Prompt)
    ensures p.parentId.None? && p.children == []
    ensures p.text == text && p.author == author && p.community == community && p.createdAt == now
    ensures p.code == code && p.imageUrl == imageUrl
    ensures HasText(p) <==> text != ""
  {
    Prompt(text, code, imageUrl, author, community, now, None, [])
  }

  /** The document `new Prompt(...)` builds for a reply to `parent`. */
  function NewComment(text: string, author: UserId, parent: PromptId, now: Timestamp): (p: Prompt)
    ensures p.parentId == Some(parent) && p.community.None? && p.children == []
    ensures p.text == text && p.author == author && p.createdAt == now
    ensures p.code.None? && p.imageUrl.None?
    ensures HasText(p) <==> text != ""
  {
    Prompt(text, None, None, author, None, now, Some(parent), [])
  }
}

=== FILE: prompt_store.dfy ===
/**
 * The server actions of lib/actions/prompt.actions.ts, run against an
 * in-memory copy of the Prompt, User and Community collections.
 */
module PromptActions {
  import opened Wrappers
  import opened PromptModel
  import opened PromptTree
  import opened BackIndex
  import opened StoreState
  import Feed

  /** What an action throws. */
  datatype ActionError =
    /** An error whose message the action itself spells out. */
    | Thrown(message: string)
    /** `prefix` followed by the schema validator's message about the required `path`. */
    | Rejected(prefix: string, path: string)

  const DeleteNotFound: string := "Failed to delete prompt: Prompt not found"
  const AddCommentFailed: string := "Unable to add comment"
  const CreateFailedPrefix: string := "Failed to create prompt: "

  class PromptStore {
    /** The collections, as the last action left them. */
    var db: Database

    ghost predicate Valid()
      reads this
    {
      Consistent(db)
    }

    /** Collections holding the given users and communities and no prompts yet. */
    constructor (users: set<UserId>, communities: map<string, CommunityRef>)
      ensures Valid()
      ensures db.prompts == map[] && db.order == [] && db.nextId == 0
      ensures db.userPrompts == map u | u in users :: []
      ensures db.communityPrompts == map c | c in communities.Values :: []
      ensures db.communityIds == communities
    {
      EmptyConsistent(users, communities);
      db := Database(map[], [], map u | u in users :: [], map c | c in communities.Values :: [], communities, 0);
    }

    /** `Community.findOne({ id: communityId }, { _id: 1 })`: no id, or an unknown one, finds nothing. */
    function FindCommunity(communityId: Option<string>): (found: Option<CommunityRef>)
      reads this
      ensures found.Some? <==> communityId.Some? && communityId.value in db.communityIds
      ensures found.Some? ==> found.value == db.communityIds[communityId.value]
      ensures Valid() && found.Some? ==> found.value in db.communityPrompts
    {
      if communityId.Some? && communityId.value in db.communityIds then
        Some(db.communityIds[communityId.value])
      else
        None
    }

    /** `fetchPromptById`: the stored record, or nothing for an unknown id. */
    function FetchPromptById(promptId: PromptId): (found: Option<Prompt>)
      reads this
      ensures found.Some? <==> promptId in db.prompts
      ensures found.Some? ==> found.value == db.prompts[promptId]
    {
      if promptId in db.prompts then Some(db.prompts[promptId]) else None
    }

    /** `fetchPosts(pageNumber, pageSize)` on the current collections. */
    function FetchPosts(pageNumber: int, pageSize: int): Feed.Page
      reads this
      requires Valid() && pageNumber >= 1 && pageSize >= 1
    {
      Feed.FetchPosts(db.prompts, db.order, pageNumber, pageSize)
    }

    /**
     * `createPrompt`: look the community up, store a new top-level prompt,
     * then push its id onto the author's list and, when the lookup found a
     * community, onto that community's list. The returned id stands for the
     * created document's `_id`.
     */
    method CreatePrompt(text: string, code: Option<string>, imageUrl: Option<string>, author: UserId,
                        communityId: Option<string>, now: Timestamp)
      returns (result: Result<PromptId, ActionError>)
      requires Valid()
      modifies this
      ensures Valid()
      ensures db.communityIds == old(db.communityIds)
      ensures text == "" ==> result == Failure(Rejected(CreateFailedPrefix, "text")) && db == old(db)
      ensures text != "" ==> result.Success?
      ensures result.Success? ==>
        var id := result.value;
        var community := old(FindCommunity(communityId));
        && id == old(db.nextId) && id !in old(db.prompts)
        && db.prompts == old(db.prompts)[id := NewPost(text, code, imageUrl, author, community, now)]
        && db.prompts[id].text == text && db.prompts[id].author == author && db.prompts[id].community == community
        && db.prompts[id].parentId.None? && db.prompts[id].children == []
        && db.order == old(db.order) + [id]
        && db.nextId == id + 1
        && db.userPrompts == Push(old(db.userPrompts), author, id)
        && db.communityPrompts == PushTo(old(db.communityPrompts), community, id)
        && (community.None? ==> db.communityPrompts == old(db.communityPrompts))
    {
      var communityIdObject := FindCommunity(communityId);
      if text == "" {
        return Failure(Rejected(CreateFailedPrefix, "text"));
      }
      var id := db.nextId;
      var createdPrompt := NewPost(text, code, imageUrl, author, communityIdObject, now);
      FreshId(db.prompts, db.order, id);
      db := db.(prompts := db.prompts[id := createdPrompt], order := db.order + [id], nextId := id + 1);
      db := db.(userPrompts := Push(db.userPrompts, author, id));
      db := db.(communityPrompts := PushTo(db.communityPrompts, communityIdObject, id));
      PostKeepsConsistent(old(db), createdPrompt, db);
      result := Success(id);
    }

    /**
     * `fetchAllChildPrompts(r)`: for each direct reply, in store order, the
     * reply followed by everything below it.
     */
    method FetchAllChildPrompts(r: PromptId) returns (descendantPrompts: seq<PromptId>)
      requires Valid()
      ensures descendantPrompts == Descendants(db.prompts, db.order, r)
      decreases Later(db.prompts, r)
    {
      var childPrompts := ChildrenOf(db.prompts, db.order, r);
      descendantPrompts := [];
      for i := 0 to |childPrompts|
        invariant descendantPrompts == Forest(db.prompts, db.order, r, childPrompts[..i])
      {
        var childPrompt := childPrompts[i];
        ForestStep(db.prompts, db.order, r, childPrompts, i);
        var descendants := FetchAllChildPrompts(childPrompt);
        descendantPrompts := descendantPrompts + [childPrompt] + descendants;
      }
      assert childPrompts[..|childPrompts|] == childPrompts;
    }

    /**
     * `deletePrompt(id)`: remove the prompt and everything below it, then pull
     * the removed ids from the lists of their authors and communities.
     */
    method DeletePrompt(id: PromptId) returns (result: Result<(), ActionError>)
      requires Valid()
      modifies this
      ensures Valid()
      ensures db.communityIds == old(db.communityIds) && db.nextId == old(db.nextId)
      ensures id !in old(db.prompts) ==> result == Failure(Thrown(DeleteNotFound)) && db == old(db)
      ensures id in old(db.prompts) ==> result.Success?
      ensures result.Success? ==>
        var doomed := Subtree(old(db.prompts), old(db.order), id);
        && db.prompts == old(db.prompts) - doomed
        && db.order == Pull(old(db.order), doomed)
        && db.userPrompts == PullFrom(old(db.userPrompts), AuthorsOf(old(db.prompts), doomed), doomed)
        && db.communityPrompts == PullFrom(old(db.communityPrompts), CommunitiesOf(old(db.prompts), doomed), doomed)
    {
      if id !in db.prompts {
        return Failure(Thrown(DeleteNotFound));
      }
      var descendantPrompts := FetchAllChildPrompts(id);
      var descendantPromptIds := [id] + descendantPrompts;
      var doomed := IdsOf(descendantPromptIds);
      assert doomed == Subtree(db.prompts, db.order, id);
      var uniqueAuthorIds := AuthorsOf(db.prompts, doomed);
      var uniqueCommunityIds := CommunitiesOf(db.prompts, doomed);
      DeleteKeepsConsistent(db, id);
      db := db.(prompts := db.prompts - doomed, order := Pull(db.order, doomed));
      db := db.(userPrompts := PullFrom(db.userPrompts, uniqueAuthorIds, doomed));
      db := db.(communityPrompts := PullFrom(db.communityPrompts, uniqueCommunityIds, doomed));
      result := Success(());
    }

    /**
     * `addCommentToPrompt`: save a reply to `promptId`, then push its id onto
     * the parent's `children` and save the parent. No user or community list
     * changes.
     */
    method AddCommentToPrompt(promptId: PromptId, commentText: string, userId: UserId, now: Timestamp)
      returns (result: Result<PromptId, ActionError>)
      requires Valid()
      modifies this
      ensures Valid()
      ensures db.userPrompts == old(db.userPrompts) && db.communityPrompts == old(db.communityPrompts)
      ensures db.communityIds == old(db.communityIds)
      ensures promptId !in old(db.prompts) || commentText == "" ==>
        result == Failure(Thrown(AddCommentFailed)) && db == old(db)
      ensures promptId in old(db.prompts) && commentText != "" ==> result.Success?
      ensures result.Success? ==>
        var id := result.value;
        var parent := old(db.prompts)[promptId];
        && id == old(db.nextId) && id !in old(db.prompts)
        && db.prompts == old(db.prompts)[id := NewComment(commentText, userId, promptId, now)]
                                        [promptId := parent.(children := parent.children + [id])]
        && db.prompts[id].text == commentText && db.prompts[id].author == userId
        && db.prompts[id].parentId == Some(promptId) && db.prompts[id].community.None?
        && db.prompts[promptId].children == parent.children + [id]
        && db.order == old(db.order) + [id]
        && db.nextId == id + 1
    {
      if promptId !in db.prompts {
        return Failure(Thrown(AddCommentFailed));
      }
      var originalPrompt := db.prompts[promptId];
      if commentText == "" {
        return Failure(Thrown(AddCommentFailed));
      }
      var id := db.nextId;
      var commentPrompt := NewComment(commentText, userId, promptId, now);
      FreshId(db.prompts, db.order, id);
      db := db.(prompts := db.prompts[id := commentPrompt], order := db.order + [id], nextId := id + 1);
      originalPrompt := originalPrompt.(children := originalPrompt.children + [id]);
      db := db.(prompts := db.prompts[promptId := originalPrompt]);
      CommentKeepsConsistent(old(db), commentPrompt, db);
      result := Success(id);
    }
  }
}

=== FILE: prompt_tree.dfy ===
/**
 * The reply tree of the prompt collection, as `fetchAllChildPrompts`
 * (lib/actions/prompt.actions.ts) walks it: by `parentId` equality, in the
 * order the collection returns documents.
 */
module PromptTree {
  import opened Wrappers
  import opened PromptModel

  /** The prompt collection, keyed by id. */
  type Table = map<PromptId, Prompt>

  predicate Distinct(s: seq<PromptId>)
  {
    forall i, j :: 0 <= i < j < |s| ==> s[i] != s[j]
  }

  /** `order` is the order the collection returns documents in: each stored prompt once. */
  ghost predicate StoreOrder(ps: Table, order: seq<PromptId>)
  {
    Distinct(order) && forall x :: x in order <==> x in ps
  }

  /** Every reply was created after its parent, so its id is the larger one. */
  ghost predicate ParentsEarlier(ps: Table)
  {
    forall x :: x in ps && ps[x].parentId.Some? ==> ps[x].parentId.value < x
  }

  ghost predicate Wf(ps: Table, order: seq<PromptId>)
  {
    StoreOrder(ps, order) && ParentsEarlier(ps)
  }

  /** A stored reply's parent is stored and lists the reply among its `children`. */
  ghost predicate RepliesLinked(ps: Table)
  {
    forall x :: x in ps && ps[x].parentId.Some? ==>
      ps[x].parentId.value in ps && x in ps[ps[x].parentId.value].children
  }

  /** `Prompt.find({ parentId: r })`: the stored direct replies to `r`, in store order. */
  function ChildrenOf(ps: Table, order: seq<PromptId>, r: PromptId): (kids: seq<PromptId>)
    requires forall x :: x in order ==> x in ps
    ensures forall k :: k in kids <==> k in order && ps[k].parentId == Some(r)
    ensures Distinct(order) ==> Distinct(kids)
  {
    if order == [] then []
    else
      var rest := ChildrenOf(ps, order[1..], r);
      assert Distinct(order) ==> order[0] !in order[1..];
      if ps[order[0]].parentId == Some(r) then [order[0]] + rest else rest
  }

  /** The replies keep their store order: those found in `a + b` are those found in `a`, then those found in `b`. */
  lemma {:induction false} ChildrenInStoreOrder(ps: Table, a: seq<PromptId>, b: seq<PromptId>, r: PromptId)
    requires forall x :: x in a ==> x in ps
    requires forall x :: x in b ==> x in ps
    ensures ChildrenOf(ps, a + b, r) == ChildrenOf(ps, a, r) + ChildrenOf(ps, b, r)
  {
    if a == [] {
      assert a + b == b;
    } else {
      assert (a + b)[0] == a[0] && (a + b)[1..] == a[1..] + b;
      ChildrenInStoreOrder(ps, a[1..], b, r);
    }
  }

  /** The stored ids above `r`; it shrinks from a prompt to each of its replies. */
  function Later(ps: Table, r: PromptId): set<PromptId>
  {
    set x | x in ps.Keys && x > r
  }

  /** A prompt stored after `r` has fewer prompts after it than `r` has. */
  lemma LaterShrinks(ps: Table, r: PromptId, c: PromptId)
    requires c in ps && r < c
    ensures Later(ps, c) < Later(ps, r)
  {
    assert c in Later(ps, r) && c !in Later(ps, c);
  }

  /** `x`'s chain of parents reaches `a`. */
  ghost predicate IsAncestor(ps: Table, a: PromptId, x: PromptId)
    requires ParentsEarlier(ps)
    decreases x
  {
    x in ps && ps[x].parentId.Some? &&
    (ps[x].parentId.value == a || IsAncestor(ps, a, ps[x].parentId.value))
  }

  /** The direct reply to `r` on the chain from `x` up to its ancestor `r`. */
  ghost function Branch(ps: Table, r: PromptId, x: PromptId): PromptId
    requires ParentsEarlier(ps) && IsAncestor(ps, r, x)
    decreases x
  {
    var p := ps[x].parentId.value;
    if p == r then x else Branch(ps, r, p)
  }

  /** What `fetchAllChildPrompts(r)` returns: each reply of `r`, followed by that reply's own descendants. */
  function Descendants(ps: Table, order: seq<PromptId>, r: PromptId): seq<PromptId>
    requires Wf(ps, order)
    decreases Later(ps, r), 1
  {
    Forest(ps, order, r, ChildrenOf(ps, order, r))
  }

  /** The part of `Descendants(r)` that the replies `kids` of `r` contribute. */
  function Forest(ps: Table, order: seq<PromptId>, r: PromptId, kids: seq<PromptId>): seq<PromptId>
    requires Wf(ps, order)
    requires forall k :: k in kids ==> k in ps && ps[k].parentId == Some(r)
    decreases Later(ps, r), 0, |kids|
  {
    if kids == [] then []
    else
      var last := kids[|kids| - 1];
      assert last in kids;
      assert last in Later(ps, r) && last !in Later(ps, last);
      Forest(ps, order, r, kids[..|kids| - 1]) + [last] + Descendants(ps, order, last)
  }

  lemma {:induction false} AncestorBelow(ps: Table, a: PromptId, x: PromptId)
    requires ParentsEarlier(ps)
    ensures IsAncestor(ps, a, x) ==> a < x
    decreases x
  {
    if IsAncestor(ps, a, x) {
      var p := ps[x].parentId.value;
      if p != a {
        AncestorBelow(ps, a, p);
      }
    }
  }

  lemma {:induction false} BranchIsChild(ps: Table, r: PromptId, x: PromptId)
    requires ParentsEarlier(ps) && IsAncestor(ps, r, x)
    ensures var c := Branch(ps, r, x);
      c in ps && ps[c].parentId == Some(r) && (c == x || IsAncestor(ps, c, x))
    decreases x
  {
    var p := ps[x].parentId.value;
    if p != r {
      BranchIsChild(ps, r, p);
    }
  }

  /** Below a direct reply `c` of `r`, every prompt descends from `r` through `c`. */
  lemma {:induction false} BranchOfChild(ps: Table, r: PromptId, c: PromptId, x: PromptId)
    requires ParentsEarlier(ps)
    requires c in ps && ps[c].parentId == Some(r)
    ensures IsAncestor(ps, c, x) ==> IsAncestor(ps, r, x) && Branch(ps, r, x) == c
    decreases x
  {
    if IsAncestor(ps, c, x) {
      var p := ps[x].parentId.value;
      assert IsAncestor(ps, r, c);
      if p != c {
        BranchOfChild(ps, r, c, p);
        AncestorBelow(ps, c, p);
      }
    }
  }

  lemma {:induction false} DescendantsSound(ps: Table, order: seq<PromptId>, r: PromptId)
    requires Wf(ps, order)
    ensures forall x :: x in Descendants(ps, order, r) ==> IsAncestor(ps, r, x)
    decreases Later(ps, r), 1
  {
    ForestSound(ps, order, r, ChildrenOf(ps, order, r));
  }

  lemma {:induction false} ForestSound(ps: Table, order: seq<PromptId>, r: PromptId, kids: seq<PromptId>)
    requires Wf(ps, order)
    requires forall k :: k in kids ==> k in ps && ps[k].parentId == Some(r)
    ensures forall x :: x in Forest(ps, order, r, kids) ==> IsAncestor(ps, r, x) && Branch(ps, r, x) in kids
    decreases Later(ps, r), 0, |kids|
  {
    if kids != [] {
      var init, last := kids[..|kids| - 1], kids[|kids| - 1];
      assert last in kids;
      assert last in Later(ps, r) && last !in Later(ps, last);
      ForestSound(ps, order, r, init);
      DescendantsSound(ps, order, last);
      forall x | x in Descendants(ps, order, last)
        ensures IsAncestor(ps, r, x) && Branch(ps, r, x) == last
      {
        BranchOfChild(ps, r, last, x);
      }
    }
  }

  lemma {:induction false} ForestContains(ps: Table, order: seq<PromptId>, r: PromptId, kids: seq<PromptId>, i: nat)
    requires Wf(ps, order)
    requires forall k :: k in kids ==> k in ps && ps[k].parentId == Some(r)
    requires i < |kids|
    ensures kids[i] in Forest(ps, order, r, kids)
    ensures forall y :: y in Descendants(ps, order, kids[i]) ==> y in Forest(ps, order, r, kids)
    decreases |kids|
  {
    if i < |kids| - 1 {
      ForestContains(ps, order, r, kids[..|kids| - 1], i);
    }
  }

  lemma {:induction false} DescendantsComplete(ps: Table, order: seq<PromptId>, r: PromptId, x: PromptId)
    requires Wf(ps, order)
    ensures IsAncestor(ps, r, x) ==> x in Descendants(ps, order, r)
    decreases Later(ps, r)
  {
    if IsAncestor(ps, r, x) {
      BranchIsChild(ps, r, x);
      var c := Branch(ps, r, x);
      var kids := ChildrenOf(ps, order, r);
      assert c in kids;
      var i :| 0 <= i < |kids| && kids[i] == c;
      ForestContains(ps, order, r, kids, i);
      if c != x {
        assert c in Later(ps, r) && c !in Later(ps, c);
        DescendantsComplete(ps, order, c, x);
      }
    }
  }

  /** `fetchAllChildPrompts(r)` returns exactly the prompts that descend from `r`. */
  lemma DescendantsExact(ps: Table, order: seq<PromptId>, r: PromptId)
    requires Wf(ps, order)
    ensures forall x :: x in Descendants(ps, order, r) <==> IsAncestor(ps, r, x)
  {
    DescendantsSound(ps, order, r);
    forall x | IsAncestor(ps, r, x)
      ensures x in Descendants(ps, order, r)
    {
      DescendantsComplete(ps, order, r, x);
    }
  }

  lemma DistinctConcat(a: seq<PromptId>, b: seq<PromptId>)
    requires Distinct(a) && Distinct(b)
    requires forall x :: x in b ==> x !in a
    ensures Distinct(a + b)
  {
    forall i, j | 0 <= i < j < |a + b|
      ensures (a + b)[i] != (a + b)[j]
    {
      if i >= |a| {
        assert (a + b)[i] == b[i - |a|] && (a + b)[j] == b[j - |a|];
      } else if j >= |a| {
        assert (a + b)[j] == b[j - |a|] && b[j - |a|] in b;
      }
    }
  }

  lemma {:induction false} DescendantsDistinct(ps: Table, order: seq<PromptId>, r: PromptId)
    requires Wf(ps, order)
    ensures Distinct(Descendants(ps, order, r))
    decreases Later(ps, r), 1
  {
    ForestDistinct(ps, order, r, ChildrenOf(ps, order, r));
  }

  lemma {:induction false} ForestDistinct(ps: Table, order: seq<PromptId>, r: PromptId, kids: seq<PromptId>)
    requires Wf(ps, order)
    requires forall k :: k in kids ==> k in ps && ps[k].parentId == Some(r)
    requires Distinct(kids)
    ensures Distinct(Forest(ps, order, r, kids))
    decreases Later(ps, r), 0, |kids|
  {
    if kids != [] {
      var init, last := kids[..|kids| - 1], kids[|kids| - 1];
      assert last in Later(ps, r) && last !in Later(ps, last);
      var front, sub := Forest(ps, order, r, init), Descendants(ps, order, last);
      ForestDistinct(ps, order, r, init);
      DescendantsDistinct(ps, order, last);
      ForestSound(ps, order, r, init);
      DescendantsSound(ps, order, last);
      AncestorBelow(ps, last, last);
      assert last !in init;
      assert Branch(ps, r, last) == last;
      forall x | x in sub
        ensures x !in front + [last]
      {
        BranchOfChild(ps, r, last, x);
        AncestorBelow(ps, last, x);
      }
      DistinctConcat(front, [last]);
      DistinctConcat(front + [last], sub);
    }
  }

  /** Each descendant of `r` occurs exactly once, and `r` is not among them. */
  lemma DescendantsOnce(ps: Table, order: seq<PromptId>, r: PromptId)
    requires Wf(ps, order)
    ensures Distinct([r] + Descendants(ps, order, r))
  {
    DescendantsDistinct(ps, order, r);
    DescendantsSound(ps, order, r);
    AncestorBelow(ps, r, r);
    DistinctConcat([r], Descendants(ps, order, r));
  }

  /** Pre-order: every prompt in `Descendants(r)` is immediately followed by exactly its own descendants. */
  lemma {:induction false} DescendantsPreorder(ps: Table, order: seq<PromptId>, r: PromptId, i: nat)
    requires Wf(ps, order)
    requires i < |Descendants(ps, order, r)|
    ensures var ds := Descendants(ps, order, r);
            var sub := Descendants(ps, order, ds[i]);
            i + 1 + |sub| <= |ds| && ds[i + 1 .. i + 1 + |sub|] == sub
    decreases Later(ps, r), 1, 0, 0
  {
    ForestPreorder(ps, order, r, ChildrenOf(ps, order, r), i);
  }

  lemma {:induction false} ForestPreorder(ps: Table, order: seq<PromptId>, r: PromptId, kids: seq<PromptId>, i: nat)
    requires Wf(ps, order)
    requires forall k :: k in kids ==> k in ps && ps[k].parentId == Some(r)
    requires i < |Forest(ps, order, r, kids)|
    ensures var ds := Forest(ps, order, r, kids);
            var sub := Descendants(ps, order, ds[i]);
            i + 1 + |sub| <= |ds| && ds[i + 1 .. i + 1 + |sub|] == sub
    decreases Later(ps, r), 0, |kids|, 1
  {
    var init, last := kids[..|kids| - 1], kids[|kids| - 1];
    var front, tail := Forest(ps, order, r, init), Descendants(ps, order, last);
    assert Forest(ps, order, r, kids) == front + [last] + tail;
    if i < |front| {
      PreorderInFront(ps, order, r, kids, i);
    } else if i == |front| {
      AfterPrefix(front, last, tail);
    } else {
      PreorderInTail(ps, order, r, kids, i);
    }
  }

  lemma {:induction false} PreorderInFront(ps: Table, order: seq<PromptId>, r: PromptId, kids: seq<PromptId>, i: nat)
    requires Wf(ps, order)
    requires forall k :: k in kids ==> k in ps && ps[k].parentId == Some(r)
    requires kids != [] && i < |Forest(ps, order, r, kids[..|kids| - 1])|
    ensures var ds := Forest(ps, order, r, kids);
            var sub := Descendants(ps, order, ds[i]);
            i + 1 + |sub| <= |ds| && ds[i + 1 .. i + 1 + |sub|] == sub
    decreases Later(ps, r), 0, |kids|, 0
  {
    var init, last := kids[..|kids| - 1], kids[|kids| - 1];
    var front, tail := Forest(ps, order, r, init), Descendants(ps, order, last);
    assert Forest(ps, order, r, kids) == front + [last] + tail;
    var sub := Descendants(ps, order, front[i]);
    ForestPreorder(ps, order, r, init, i);
    WindowInPrefix(front, [last], i, sub);
    WindowInPrefix(front + [last], tail, i, sub);
  }

  lemma {:induction false} PreorderInTail(ps: Table, order: seq<PromptId>, r: PromptId, kids: seq<PromptId>, i: nat)
    requires Wf(ps, order)
    requires forall k :: k in kids ==> k in ps && ps[k].parentId == Some(r)
    requires kids != [] && |Forest(ps, order, r, kids[..|kids| - 1])| < i < |Forest(ps, order, r, kids)|
    ensures var ds := Forest(ps, order, r, kids);
            var sub := Descendants(ps, order, ds[i]);
            i + 1 + |sub| <= |ds| && ds[i + 1 .. i + 1 + |sub|] == sub
    decreases Later(ps, r), 0, |kids|, 0
  {
    var init, last := kids[..|kids| - 1], kids[|kids| - 1];
    LastReply(ps, order, r, kids);
    var front, tail := Forest(ps, order, r, init), Descendants(ps, order, last);
    var j := i - |front| - 1;
    var sub := Descendants(ps, order, tail[j]);
    DescendantsPreorder(ps, order, last, j);
    WindowInSuffix(front + [last], tail, j, sub);
    assert Forest(ps, order, r, kids)[i] == tail[j];
  }

  /** `Forest` over `kids` ends with the last reply and what lies below it, and that reply is later than `r`. */
  lemma LastReply(ps: Table, order: seq<PromptId>, r: PromptId, kids: seq<PromptId>)
    requires Wf(ps, order)
    requires forall k :: k in kids ==> k in ps && ps[k].parentId == Some(r)
    requires kids != []
    ensures var last := kids[|kids| - 1];
      && Forest(ps, order, r, kids) == Forest(ps, order, r, kids[..|kids| - 1]) + [last] + Descendants(ps, order, last)
      && Later(ps, last) < Later(ps, r)
  {
    var last := kids[|kids| - 1];
    assert last in kids;
    LaterShrinks(ps, r, last);
  }

  /** Extending the walked prefix of `kids` by one reply appends that reply and what lies below it. */
  lemma ForestStep(ps: Table, order: seq<PromptId>, r: PromptId, kids: seq<PromptId>, i: nat)
    requires Wf(ps, order)
    requires forall k :: k in kids ==> k in ps && ps[k].parentId == Some(r)
    requires i < |kids|
    ensures Forest(ps, order, r, kids[..i + 1]) ==
            Forest(ps, order, r, kids[..i]) + [kids[i]] + Descendants(ps, order, kids[i])
    ensures Later(ps, kids[i]) < Later(ps, r)
  {
    assert kids[i] in kids;
    LaterShrinks(ps, r, kids[i]);
    assert kids[..i + 1][..i] == kids[..i];
    LastReply(ps, order, r, kids[..i + 1]);
  }

  /** In `a + [x] + b`, `x` sits right after `a` and is followed by exactly `b`. */
  lemma AfterPrefix(a: seq<PromptId>, x: PromptId, b: seq<PromptId>)
    ensures (a + [x] + b)[|a|] == x && (a + [x] + b)[|a| + 1 .. |a| + 1 + |b|] == b
  {
    assert (a + [x] + b)[|a| + 1 ..] == b;
  }

  /** A run `w` right after position `i` of `a` stays there when `b` is appended. */
  lemma WindowInPrefix(a: seq<PromptId>, b: seq<PromptId>, i: nat, w: seq<PromptId>)
    requires i + 1 + |w| <= |a| && a[i + 1 .. i + 1 + |w|] == w
    ensures (a + b)[i] == a[i] && (a + b)[i + 1 .. i + 1 + |w|] == w
  {
    assert (a + b)[i + 1 .. i + 1 + |w|] == a[i + 1 .. i + 1 + |w|];
  }

  /** A run `w` right after position `j` of `b` moves by `|a|` when `a` is put in front. */
  lemma WindowInSuffix(a: seq<PromptId>, b: seq<PromptId>, j: nat, w: seq<PromptId>)
    requires j + 1 + |w| <= |b| && b[j + 1 .. j + 1 + |w|] == w
    ensures (a + b)[|a| + j] == b[j] && (a + b)[|a| + j + 1 .. |a| + j + 1 + |w|] == w
  {
    assert (a + b)[|a| + j + 1 .. |a| + j + 1 + |w|] == b[j + 1 .. j + 1 + |w|];
  }

  /** The ids a list names. */
  function IdsOf(s: seq<PromptId>): (ids: set<PromptId>)
    ensures forall x :: x in ids <==> x in s
  {
    set x | x in s
  }

  /** The prompts `deletePrompt(r)` removes: `r` and every prompt that descends from it. */
  function Subtree(ps: Table, order: seq<PromptId>, r: PromptId): (doomed: set<PromptId>)
    requires Wf(ps, order)
    ensures forall x :: x in doomed <==> x == r || IsAncestor(ps, r, x)
    ensures r in ps ==> doomed <= ps.Keys
  {
    DescendantsExact(ps, order, r);
    IdsOf([r] + Descendants(ps, order, r))
  }

  /** No reply outlives its parent: the children of a prompt in `Subtree(r)` are in it too. */
  lemma SubtreeClosed(ps: Table, order: seq<PromptId>, r: PromptId)
    requires Wf(ps, order)
    ensures forall x :: x in ps && ps[x].parentId.Some? && ps[x].parentId.value in Subtree(ps, order, r) ==>
      x in Subtree(ps, order, r)
  {
  }
}

=== FILE: prompt_validation.dfy ===
/** The form schemas of lib/validations/prompt.ts, keyed on the field `prompt`. */
module PromptForm {
  import opened Wrappers
  import opened FieldRules

  /** The fields `PromptValidation` reads; other keys are stripped by zod and play no part. */
  datatype PromptFields = PromptFields(prompt: Option<string>, codeSnippet: Option<string>, accountId: Option<string>)

  /** The fields `CommentValidation` reads: it has no `accountId`. */
  datatype CommentFields = CommentFields(prompt: Option<string>, codeSnippet: Option<string>)

  /** The issues `PromptValidation` reports, in the order of its keys; `[]` means the form is accepted. */
  function PromptValidation(f: PromptFields): (issues: seq<Issue>)
    ensures issues == [] <==> f.prompt.Some? && |f.prompt.value| >= 3 && f.accountId.Some?
    ensures f.prompt.Some? && |f.prompt.value| < 3 ==> TooSmall("prompt", 3, Some(MinimumMessage)) in issues
    ensures f.prompt == Some("") ==> issues != []
    ensures f.accountId.None? ==> Required("accountId") in issues
    ensures forall i :: i in issues ==> i.path == "prompt" || i.path == "accountId"
  {
    MinThreeText("prompt", f.prompt) + RequiredString("accountId", f.accountId)
  }

  /** The issues `CommentValidation` reports: the same text rule and nothing else. */
  function CommentValidation(f: CommentFields): (issues: seq<Issue>)
    ensures issues == [] <==> f.prompt.Some? && |f.prompt.value| >= 3
    ensures f.prompt.Some? && |f.prompt.value| < 3 ==> TooSmall("prompt", 3, Some(MinimumMessage)) in issues
    ensures forall i :: i in issues ==> i.path == "prompt"
    ensures forall a :: (issues == []) <==> (PromptValidation(PromptFields(f.prompt, f.codeSnippet, Some(a))) == [])
  {
    MinThreeText("prompt", f.prompt)
  }
}

=== FILE: store_state.dfy ===
/**
 * The collections the prompt actions of lib/actions/prompt.actions.ts read and
 * write, what they keep between actions, and why each action keeps it.
 */
module StoreState {
  import opened Wrappers
  import opened PromptModel
  import opened PromptTree
  import opened BackIndex
  import Feed

  /** The Prompt collection and the `prompts` lists of the User and Community collections. */
  datatype Database = Database(
    /** The Prompt documents, by id. */
    prompts: Table,
    /** The order `find` returns Prompt documents in. */
    order: seq<PromptId>,
    /** The `prompts` list of each User document. */
    userPrompts: map<UserId, seq<PromptId>>,
    /** The `prompts` list of each Community document. */
    communityPrompts: map<CommunityRef, seq<PromptId>>,
    /** Community documents by their external `id` field. */
    communityIds: map<string, CommunityRef>,
    /** The id the next stored prompt receives. */
    nextId: PromptId)

  /** `$push: { prompts: id }` on the list of `owner`; an owner that does not exist is skipped. */
  function Push<K>(lists: map<K, seq<PromptId>>, owner: K, id: PromptId): (r: map<K, seq<PromptId>>)
    ensures r.Keys == lists.Keys
    ensures forall k :: k in lists ==> r[k] == if k == owner then lists[k] + [id] else lists[k]
  {
    if owner in lists then lists[owner := lists[owner] + [id]] else lists
  }

  /** `Push` onto the list of the community, when there is one. */
  function PushTo(lists: map<CommunityRef, seq<PromptId>>, owner: Option<CommunityRef>, id: PromptId): (r: map<CommunityRef, seq<PromptId>>)
    ensures r.Keys == lists.Keys
    ensures forall k :: k in lists ==> r[k] == if owner == Some(k) then lists[k] + [id] else lists[k]
  {
    if owner.Some? then Push(lists, owner.value, id) else lists
  }

  /**
   * What the collections keep between actions: the reply tree is well formed
   * and every reply is listed in its stored parent's `children`, every prompt has its text, ids already handed out
   * lie below `nextId`, the user and community lists are exact, and every
   * community the lookup can find has a list.
   */
  ghost predicate Consistent(db: Database)
  {
    && Wf(db.prompts, db.order)
    && (forall x :: x in db.prompts ==> x < db.nextId)
    && (forall x :: x in db.prompts ==> HasText(db.prompts[x]))
    && RepliesLinked(db.prompts)
    && AuthorIndex(db.prompts, db.userPrompts)
    && CommunityIndex(db.prompts, db.communityPrompts)
    && (forall e :: e in db.communityIds ==> db.communityIds[e] in db.communityPrompts)
  }

  /** Collections with no prompts, and an empty list for each given user and community, are consistent. */
  lemma EmptyConsistent(users: set<UserId>, communities: map<string, CommunityRef>)
    ensures Consistent(Database(map[], [], map u | u in users :: [], map c | c in communities.Values :: [],
                                communities, 0))
  {
    var lists: map<CommunityRef, seq<PromptId>> := map c | c in communities.Values :: [];
    forall e | e in communities ensures communities[e] in lists {
      assert communities[e] in communities.Values;
    }
  }

  lemma FreshId(ps: Table, order: seq<PromptId>, id: PromptId)
    requires Wf(ps, order) && forall x :: x in ps ==> x < id
    ensures id !in ps && id !in order
    ensures Distinct(order + [id])
  {
    DistinctConcat(order, [id]);
  }

  /**
   * Storing a new top-level prompt under the next id and pushing that id onto
   * the lists of its author and community keeps the collections consistent.
   */
  lemma PostKeepsConsistent(db: Database, p: Prompt, db': Database)
    requires Consistent(db)
    requires p.parentId.None? && HasText(p)
    requires db' == db.(prompts := db.prompts[db.nextId := p], order := db.order + [db.nextId],
                        userPrompts := Push(db.userPrompts, p.author, db.nextId),
                        communityPrompts := PushTo(db.communityPrompts, p.community, db.nextId),
                        nextId := db.nextId + 1)
    ensures Consistent(db')
  {
    var id := db.nextId;
    FreshId(db.prompts, db.order, id);
    var ps' := db.prompts[id := p];
    assert Wf(ps', db.order + [id]);
    assert RepliesLinked(ps');
    PushKeepsAuthorIndex(db.prompts, db.userPrompts, id, p);
    PushKeepsCommunityIndex(db.prompts, db.communityPrompts, id, p);
  }

  /** Pulling an id appended to a list that did not hold it gives the list back. */
  lemma PullLast(list: seq<PromptId>, id: PromptId)
    requires id !in list
    ensures Pull(list + [id], {id}) == list
  {
    PullAppend(list, [id], {id});
    PullUntouched(list, {id});
    assert Pull([id], {id}) == [] + Pull([], {id});
  }

  /** The same for every list a `Push` of `id` may have touched. */
  lemma PullFromUndoesPush<K>(lists: map<K, seq<PromptId>>, owner: K, id: PromptId)
    requires forall k :: k in lists ==> id !in lists[k]
    ensures PullFrom(Push(lists, owner, id), {owner}, {id}) == lists
  {
    var r := PullFrom(Push(lists, owner, id), {owner}, {id});
    forall k | k in lists ensures r[k] == lists[k] {
      if k == owner {
        PullLast(lists[k], id);
      }
    }
  }

  /** A post just stored under a fresh id has no replies: deleting it removes it alone. */
  lemma FreshPostAlone(ps: Table, order: seq<PromptId>, id: PromptId, p: Prompt)
    requires Wf(ps, order) && (forall x :: x in ps ==> x < id) && p.parentId.None?
    ensures Wf(ps[id := p], order + [id])
    ensures Subtree(ps[id := p], order + [id], id) == {id}
    ensures ps[id := p] - {id} == ps
  {
    FreshId(ps, order, id);
    var ps' := ps[id := p];
    assert Wf(ps', order + [id]);
    forall x | x in ps' ensures !IsAncestor(ps', id, x) {
      AncestorBelow(ps', id, x);
    }
  }

  lemma PullFromUndoesPushAuthor(lists: map<UserId, seq<PromptId>>, ps: Table, id: PromptId, p: Prompt)
    requires forall k :: k in lists ==> id !in lists[k]
    ensures PullFrom(Push(lists, p.author, id), AuthorsOf(ps[id := p], {id}), {id}) == lists
  {
    assert AuthorsOf(ps[id := p], {id}) == {p.author};
    PullFromUndoesPush(lists, p.author, id);
  }

  lemma PullFromUndoesPushTo(lists: map<CommunityRef, seq<PromptId>>, ps: Table, id: PromptId, p: Prompt)
    requires forall k :: k in lists ==> id !in lists[k]
    requires id !in ps
    ensures PullFrom(PushTo(lists, p.community, id), CommunitiesOf(ps[id := p], {id}), {id}) == lists
  {
    var ps' := ps[id := p];
    if p.community.Some? {
      assert CommunitiesOf(ps', {id}) == {p.community.value};
      PullFromUndoesPush(lists, p.community.value, id);
    } else {
      assert CommunitiesOf(ps', {id}) == {};
      var r := PullFrom(lists, {}, {id});
      assert forall k :: k in lists ==> r[k] == lists[k];
    }
  }

  /**
   * Deleting a post right after creating it gives back the collections as
   * they were, apart from the id counter: it has no replies, and pulling its
   * id from its author's and community's lists undoes the pushes.
   */
  lemma DeleteUndoesCreate(db: Database, p: Prompt)
    requires Wf(db.prompts, db.order) && forall x :: x in db.prompts ==> x < db.nextId
    requires forall u :: u in db.userPrompts ==> db.nextId !in db.userPrompts[u]
    requires forall c :: c in db.communityPrompts ==> db.nextId !in db.communityPrompts[c]
    requires p.parentId.None?
    ensures var id := db.nextId;
      var ps' := db.prompts[id := p];
      var order' := db.order + [id];
      && Wf(ps', order')
      && Subtree(ps', order', id) == {id}
      && ps' - {id} == db.prompts
      && Pull(order', {id}) == db.order
      && PullFrom(Push(db.userPrompts, p.author, id), AuthorsOf(ps', {id}), {id}) == db.userPrompts
      && PullFrom(PushTo(db.communityPrompts, p.community, id), CommunitiesOf(ps', {id}), {id})
         == db.communityPrompts
  {
    var id := db.nextId;
    FreshPostAlone(db.prompts, db.order, id, p);
    FreshId(db.prompts, db.order, id);
    PullLast(db.order, id);
    PullFromUndoesPushAuthor(db.userPrompts, db.prompts, id, p);
    PullFromUndoesPushTo(db.communityPrompts, db.prompts, id, p);
  }

  lemma PushKeepsAuthorIndex(ps: Table, users: map<UserId, seq<PromptId>>, id: PromptId, p: Prompt)
    requires AuthorIndex(ps, users) && id !in ps
    ensures AuthorIndex(ps[id := p], Push(users, p.author, id))
  {
    var users' := Push(users, p.author, id);
    forall u | u in users' ensures Distinct(users'[u]) {
      if u == p.author {
        DistinctConcat(users[u], [id]);
      }
    }
  }

  lemma PushKeepsCommunityIndex(ps: Table, communities: map<CommunityRef, seq<PromptId>>, id: PromptId, p: Prompt)
    requires CommunityIndex(ps, communities) && id !in ps
    ensures CommunityIndex(ps[id := p], PushTo(communities, p.community, id))
  {
    var communities' := PushTo(communities, p.community, id);
    var ps' := ps[id := p];
    forall c, x | c in communities' && x in communities'[c] ensures x in ps' && ps'[x].community == Some(c) {
      if x != id {
        assert x in communities[c];
      }
    }
    forall x | x in ps' && ps'[x].community.Some? && ps'[x].community.value in communities'
      ensures x in communities'[ps'[x].community.value]
    {
      if x != id {
        assert x in communities[ps[x].community.value];
      }
    }
    forall c | c in communities' ensures Distinct(communities'[c]) {
      if p.community == Some(c) {
        DistinctConcat(communities[c], [id]);
      }
    }
  }

  /** The collection after `addCommentToPrompt` stores reply `c` under `id` and saves its parent. */
  function WithReply(ps: Table, id: PromptId, c: Prompt): (r: Table)
    requires c.parentId.Some? && c.parentId.value in ps
    ensures r.Keys == ps.Keys + {id}
    ensures id !in ps ==> r[id] == c
    ensures r[c.parentId.value] == ps[c.parentId.value].(children := ps[c.parentId.value].children + [id])
    ensures forall x :: x in ps && x != id && x != c.parentId.value ==> r[x] == ps[x]
  {
    var parent := ps[c.parentId.value];
    ps[id := c][c.parentId.value := parent.(children := parent.children + [id])]
  }

  lemma ReplyKeepsTree(ps: Table, order: seq<PromptId>, id: PromptId, c: Prompt)
    requires Wf(ps, order) && RepliesLinked(ps) && forall x :: x in ps ==> x < id
    requires c.parentId.Some? && c.parentId.value in ps
    ensures Wf(WithReply(ps, id, c), order + [id]) && RepliesLinked(WithReply(ps, id, c))
    ensures forall x :: x in WithReply(ps, id, c) ==> x < id + 1
  {
    FreshId(ps, order, id);
    var pid := c.parentId.value;
    var ps' := WithReply(ps, id, c);
    assert ps'.Keys == ps.Keys + {id};
    forall x | x in ps' && ps'[x].parentId.Some?
      ensures ps'[x].parentId.value < x
      ensures ps'[x].parentId.value in ps' && x in ps'[ps'[x].parentId.value].children
    {
      if x != id {
        assert ps'[x].parentId == ps[x].parentId;
        var q := ps[x].parentId.value;
        assert x in ps[q].children;
        assert ps[q].children <= ps'[q].children;
      }
    }
  }

  lemma ReplyKeepsAuthorIndex(ps: Table, users: map<UserId, seq<PromptId>>, id: PromptId, c: Prompt)
    requires AuthorIndex(ps, users) && id !in ps
    requires c.parentId.Some? && c.parentId.value in ps
    ensures AuthorIndex(WithReply(ps, id, c), users)
  {
    var ps' := WithReply(ps, id, c);
    forall u, x | u in users && x in users[u] ensures x in ps' && ps'[x].author == u {
      assert x in ps && x != id;
    }
    forall x | x in ps' && ps'[x].parentId.None? && ps'[x].author in users
      ensures x in users[ps'[x].author]
    {
      assert x != id && x in ps && ps'[x].parentId == ps[x].parentId && ps'[x].author == ps[x].author;
    }
  }

  lemma ReplyKeepsCommunityIndex(ps: Table, communities: map<CommunityRef, seq<PromptId>>, id: PromptId, c: Prompt)
    requires CommunityIndex(ps, communities) && id !in ps
    requires c.parentId.Some? && c.parentId.value in ps && c.community.None?
    ensures CommunityIndex(WithReply(ps, id, c), communities)
  {
    var ps' := WithReply(ps, id, c);
    forall k, x | k in communities && x in communities[k] ensures x in ps' && ps'[x].community == Some(k) {
      assert x in ps && x != id;
    }
    forall x | x in ps' && ps'[x].community.Some? && ps'[x].community.value in communities
      ensures x in communities[ps'[x].community.value]
    {
      assert x != id && x in ps && ps'[x].community == ps[x].community;
    }
  }

  lemma {:induction false} ReplyKeepsTopLevel(ps: Table, order: seq<PromptId>, id: PromptId, c: Prompt)
    requires forall x :: x in order ==> x in ps
    requires id !in ps && c.parentId.Some? && c.parentId.value in ps
    ensures forall x :: x in order + [id] ==> x in WithReply(ps, id, c)
    ensures Feed.TopLevel(WithReply(ps, id, c), order + [id]) == Feed.TopLevel(ps, order)
  {
    var ps' := WithReply(ps, id, c);
    if order == [] {
      assert ps'[id] == c && [id][1..] == [];
    } else {
      assert (order + [id])[1..] == order[1..] + [id];
      assert ps'[order[0]].parentId == ps[order[0]].parentId;
      ReplyKeepsTopLevel(ps, order[1..], id, c);
    }
  }

  /**
   * A reply never shows in the listing, and saving its parent changes only the
   * parent's `children`: every page of `fetchPosts` lists the same posts, in
   * the same order, afterwards.
   */
  lemma CommentKeepsListing(ps: Table, order: seq<PromptId>, id: PromptId, c: Prompt, pageNumber: int, pageSize: int)
    requires (forall x :: x in order ==> x in ps) && id !in ps
    requires c.parentId.Some? && c.parentId.value in ps
    requires pageNumber >= 1 && pageSize >= 1
    ensures forall x :: x in order + [id] ==> x in WithReply(ps, id, c)
    ensures Feed.FetchPosts(WithReply(ps, id, c), order + [id], pageNumber, pageSize)
         == Feed.FetchPosts(ps, order, pageNumber, pageSize)
  {
    var ps' := WithReply(ps, id, c);
    ReplyKeepsTopLevel(ps, order, id, c);
    var top := Feed.TopLevel(ps, order);
    assert forall y :: y in ps ==> y in ps' && ps[y].createdAt == ps'[y].createdAt;
    Feed.ByRecencySameDates(ps, ps', top);
    assert Feed.Ranked(ps', order + [id]) == Feed.Ranked(ps, order);
  }

  /**
   * Storing a reply under the next id and appending that id to its parent's
   * `children` keeps the collections consistent; no user or community list
   * changes.
   */
  lemma CommentKeepsConsistent(db: Database, c: Prompt, db': Database)
    requires Consistent(db)
    requires c.parentId.Some? && c.parentId.value in db.prompts && c.community.None? && HasText(c)
    requires db' == db.(prompts := WithReply(db.prompts, db.nextId, c), order := db.order + [db.nextId],
                        nextId := db.nextId + 1)
    ensures Consistent(db')
  {
    var ps, id := db.prompts, db.nextId;
    ReplyKeepsTree(ps, db.order, id, c);
    ReplyKeepsAuthorIndex(ps, db.userPrompts, id, c);
    ReplyKeepsCommunityIndex(ps, db.communityPrompts, id, c);
    var ps' := WithReply(ps, id, c);
    forall x | x in ps' ensures HasText(ps'[x]) {
      if x != id && x != c.parentId.value {
        assert ps'[x] == ps[x];
      }
    }
  }

  /**
   * What `deletePrompt(r)` leaves: exactly the prompts that are neither `r`
   * nor below it, each with the record it had.
   */
  lemma DeleteLeaves(ps: Table, order: seq<PromptId>, r: PromptId)
    requires Wf(ps, order)
    ensures var left := ps - Subtree(ps, order, r);
      && (forall x :: x in left <==> x in ps && x != r && !IsAncestor(ps, r, x))
      && (forall x :: x in left ==> left[x] == ps[x])
      && r !in left
  {
  }

  lemma DeleteKeepsTree(ps: Table, order: seq<PromptId>, r: PromptId)
    requires Wf(ps, order) && RepliesLinked(ps)
    ensures var doomed := Subtree(ps, order, r);
      Wf(ps - doomed, Pull(order, doomed)) && RepliesLinked(ps - doomed)
  {
    var doomed := Subtree(ps, order, r);
    var ps' := ps - doomed;
    SubtreeClosed(ps, order, r);
    forall x | x in ps' && ps'[x].parentId.Some?
      ensures ps'[x].parentId.value in ps' && x in ps'[ps'[x].parentId.value].children
    {
      assert x !in doomed;
    }
  }

  /**
   * Removing `r` and everything below it, and pulling the removed ids from the
   * lists of their authors and communities, keeps the collections consistent.
   */
  lemma DeleteKeepsConsistent(db: Database, r: PromptId)
    requires Consistent(db) && r in db.prompts
    ensures var doomed := Subtree(db.prompts, db.order, r);
      Consistent(db.(prompts := db.prompts - doomed, order := Pull(db.order, doomed),
                     userPrompts := PullFrom(db.userPrompts, AuthorsOf(db.prompts, doomed), doomed),
                     communityPrompts := PullFrom(db.communityPrompts, CommunitiesOf(db.prompts, doomed), doomed)))
  {
    var doomed := Subtree(db.prompts, db.order, r);
    DeleteKeepsTree(db.prompts, db.order, r);
    DeleteKeepsAuthorIndex(db.prompts, db.userPrompts, doomed);
    DeleteKeepsCommunityIndex(db.prompts, db.communityPrompts, doomed);
  }
}

=== FILE: thread_validation.dfy ===
/** The form schemas of lib/validations/thread.ts, keyed on the field `thread`. */
module ThreadForm {
  import opened Wrappers
  import opened FieldRules

  /** The fields `ThreadValidation` reads; other keys are stripped by zod and play no part. */
  datatype ThreadFields = ThreadFields(thread: Option<string>, codeSnippet: Option<string>, accountId: Option<string>)

  /** The fields `CommentValidation` reads: it has no `accountId`. */
  datatype CommentFields = CommentFields(thread: Option<string>, codeSnippet: Option<string>)

  /** The issues `ThreadValidation` reports, in the order of its keys; `[]` means the form is accepted. */
  function ThreadValidation(f: ThreadFields): (issues: seq<Issue>)
    ensures issues == [] <==> f.thread.Some? && |f.thread.value| >= 3 && f.accountId.Some?
    ensures f.thread.Some? && |f.thread.value| < 3 ==> TooSmall("thread", 3, Some(MinimumMessage)) in issues
    ensures f.thread == Some("") ==> issues != []
    ensures f.accountId.None? ==> Required("accountId") in issues
    ensures forall i :: i in issues ==> i.path == "thread" || i.path == "accountId"
  {
    MinThreeText("thread", f.thread) + RequiredString("accountId", f.accountId)
  }

  /** The issues `CommentValidation` reports: the same text rule and nothing else. */
  function CommentValidation(f: CommentFields): (issues: seq<Issue>)
    ensures issues == [] <==> f.thread.Some? && |f.thread.value| >= 3
    ensures f.thread.Some? && |f.thread.value| < 3 ==> TooSmall("thread", 3, Some(MinimumMessage)) in issues
    ensures forall i :: i in issues ==> i.path == "thread"
    ensures forall a :: (issues == []) <==> (ThreadValidation(ThreadFields(f.thread, f.codeSnippet, Some(a))) == [])
  {
    MinThreeText("thread", f.thread)
  }
}

=== FILE: wrappers.dfy ===
/** Option and Result, for lookups that may find nothing and actions that may throw. */
module Wrappers {

  datatype Option<+T> = None | Some(value: T)

  datatype Result<+T, +E> = Success(value: T) | Failure(error: E)
}
